=== FILE: README.md ===
# Bottom navigation indicator: the motion controller

This project models the controller that moves the selection indicator of an Android
bottom navigation bar. The repository has two variants of it:

- `BottomNavigationViewWithIndicator` paints a `RectF` under the selected item.
- `BottomNavigationLayout` moves and scales a child `View`.

Both variants follow one design:

- A selection can be vetoed by the external listener.
- Selections are ignored until the bar is laid out.
- Every selection on a laid-out bar, every reselection and every detach first ends the running
  `ValueAnimator`, so one animator slot is enough. Frames, vetoed selections and selections
  before layout leave it running.
- Each animation frame computes the indicator geometry from the animated fraction.

The modules are:

- `Optional` holds the animator slot and item-lookup option type.
- `Conversions` holds Kotlin's `roundToInt` and `toLong`, over exact reals.
- `Animation` holds the parts of `ValueAnimator` the code relies on:
  - `FloatEvaluator` as `Lerp`;
  - `ofFloat(a, b, c)` keyframes at fractions 0, ½ and 1, as `KeyframeValue`;
  - the clamped elapsed fraction;
  - the interpolator, as an arbitrary `Easing` whose endpoints are pinned at 0 and 1 and
    whose values stay in [0, 1].
- `Navigation` holds the bar as a geometry provider: whether it is laid out, its size, and
  each item's left edge and width. It also holds the listener gate, `Proceeds`.
- `ViewWithIndicator` models `BottomNavigationViewWithIndicator.kt`.
- `NavigationLayout` models `BottomNavigationLayout.kt`.

Each variant has a `State` value: the indicator geometry plus an `Option` animator slot.
Each callback is a pure function from state to state. `Run` folds a sequence of callbacks,
and the lemmas about `Run` state what holds across any sequence of events.

Animator semantics follow `ValueAnimator`:

- `start()` publishes the frame at play time 0. That is fraction 0, or fraction 1 when the
  duration is 0.
- `end()` always publishes the fraction-1 frame.
- A finished animator stays in the slot until the next cancellation, as in the source.
- `animatedFraction` is the fraction after the interpolator. The keyframes are evaluated at
  that same fraction.

The centre is a `Lerp` in `animatedFraction`, which the interpolator has already eased, so
position and scale follow the same eased fraction. Only the endpoints of the easing are
pinned, so the centre is exact at fractions 0 and 1.

`calculateDuration` truncates with `toLong`, so nearby distances share a duration. The
duration is monotone in the distance but not strictly: `DurationPlateau` shows 0 px and
0.5 px hops both taking 300 ms.

## Model

| member | source | states |
|---|---|---|
| Conversions.Round | app/src/main/java/com/patrickiv/bottomnavigationindicator/BottomNavigationLayout.kt:102 | `roundToInt` returns the integer within half a unit of its argument, with ties going up |
| Conversions.ToLong | app/src/main/java/com/patrickiv/bottomnavigationindicator/BottomNavigationViewWithIndicator.kt:118-119 | `toLong` of a non-negative value truncates to the integer just below it, and saturates at Long.MAX_VALUE |
| Animation.Lerp | app/src/main/java/com/patrickiv/bottomnavigationindicator/BottomNavigationViewWithIndicator.kt:121 | `interpolate` returns its start at t = 0 and its end at t = 1, and stays between the two for t in [0, 1] |
| Animation.KeyframeValue | app/src/main/java/com/patrickiv/bottomnavigationindicator/BottomNavigationViewWithIndicator.kt:94 | `ofFloat(a, b, c)` gives a at fraction 0, b at ½ and c at 1, and never leaves the keyframes' range inside [0, 1] |
| Animation.AnimatedFraction | app/src/main/java/com/patrickiv/bottomnavigationindicator/BottomNavigationViewWithIndicator.kt:100 | `animatedFraction` stays in [0, 1]; it is 0 when a positive-duration run starts and 1 once the duration has elapsed |
| ViewWithIndicator.Distance | app/src/main/java/com/patrickiv/bottomnavigationindicator/BottomNavigationViewWithIndicator.kt:91 | the distance is non-negative, is zero exactly when the centres coincide, and separates the two centres |
| ViewWithIndicator.CalculateDuration | app/src/main/java/com/patrickiv/bottomnavigationindicator/BottomNavigationViewWithIndicator.kt:118-119 | for a positive width the duration is floor(300 + 300 × distance / width) below Long.MAX_VALUE: 300 ms at distance 0, and under 600 ms while the distance is below the width. For a zero width it is 0 at distance 0 (NaN) and Long.MAX_VALUE otherwise (+Infinity) |
| ViewWithIndicator.DurationMonotone | app/src/main/java/com/patrickiv/bottomnavigationindicator/BottomNavigationViewWithIndicator.kt:118-119 | for a positive view width, a longer distance never gets a shorter duration |
| ViewWithIndicator.DurationPlateau | app/src/main/java/com/patrickiv/bottomnavigationindicator/BottomNavigationViewWithIndicator.kt:118-119 | truncation makes two different distances share a duration, so monotonicity is not strict |
| ViewWithIndicator.TickRect | app/src/main/java/com/patrickiv/bottomnavigationindicator/BottomNavigationViewWithIndicator.kt:95-108 | each tick's rect has width defaultSize × scale, is centred on the interpolated centre, has bottom = height − bottomOffset, and is defaultSize tall |
| ViewWithIndicator.TickEndpoints | app/src/main/java/com/patrickiv/bottomnavigationindicator/BottomNavigationViewWithIndicator.kt:94-107 | at fraction 0 the rect is centred on fromCenterX at the starting scale; at ½ it has the peak scale; at 1 it is centred on the target item at the end scale. Its width never falls below the smallest keyframe |
| ViewWithIndicator.CancelAnimator | app/src/main/java/com/patrickiv/bottomnavigationindicator/BottomNavigationViewWithIndicator.kt:123-127 | cancelling empties the slot and leaves the rect resting on the animator's target item. Without an animator nothing changes |
| ViewWithIndicator.TransitionFrom | app/src/main/java/com/patrickiv/bottomnavigationindicator/BottomNavigationViewWithIndicator.kt:88-94 | a new transition starts from the current centre with keyframes currentScale → 15 → 1. Its duration is 0 when not animated; when animated it is calculateDuration of the centre-to-item distance, i.e. floor(300 + 300 × distance / width), which is 300 ms at distance 0 |
| ViewWithIndicator.TransitionDurationFloor | app/src/main/java/com/patrickiv/bottomnavigationindicator/BottomNavigationViewWithIndicator.kt:91-94 | on a bar of positive width, an animated transition lasts floor(300 + 300 × distance / width) ms, for the distance from the current centre to the item, below Long.MAX_VALUE |
| ViewWithIndicator.OnItemSelected | app/src/main/java/com/patrickiv/bottomnavigationindicator/BottomNavigationViewWithIndicator.kt:82-116 | not laid out: nothing changes. Item missing: the result is the cancelled state with an empty slot. Item found: the slot holds exactly the new transition, built from the cancelled state |
| ViewWithIndicator.OnNavigationItemSelected | app/src/main/java/com/patrickiv/bottomnavigationindicator/BottomNavigationViewWithIndicator.kt:51-57 | returns true exactly when there is no listener or it answers true. On a veto the state is unchanged; otherwise the indicator moves |
| ViewWithIndicator.OnPreDraw | app/src/main/java/com/patrickiv/bottomnavigationindicator/BottomNavigationViewWithIndicator.kt:63-69 | first placement: the rect is at once centred on the selected item at the default size, with a zero-duration animator |
| ViewWithIndicator.OnDetachedFromWindow | app/src/main/java/com/patrickiv/bottomnavigationindicator/BottomNavigationViewWithIndicator.kt:71-75 | detaching always leaves the slot empty, with the rect resting on the target of the animator it ended |
| ViewWithIndicator.OnAnimationFrame | app/src/main/java/com/patrickiv/bottomnavigationindicator/BottomNavigationViewWithIndicator.kt:95-112 | a frame keeps the slot and publishes a defaultSize-tall rect. Once the duration has elapsed, the frame equals the terminal rect that cancelling publishes |
| ViewWithIndicator.RunInv | app/src/main/java/com/patrickiv/bottomnavigationindicator/BottomNavigationViewWithIndicator.kt:94-107 | after any sequence of callbacks on one strip the rect width is non-negative. While an animator is held, the rect is defaultSize tall and sits above that strip's bottom offset |
| ViewWithIndicator.SettlesOnLastPlaced | app/src/main/java/com/patrickiv/bottomnavigationindicator/BottomNavigationViewWithIndicator.kt:83-94 | preemption: after any interleaving of selections, frames and detaches on one strip, ending the animator leaves the rect on the last item placed, at the default size |
| ViewWithIndicator.NothingMovesBeforeLayout | app/src/main/java/com/patrickiv/bottomnavigationindicator/BottomNavigationViewWithIndicator.kt:82-83 | on a strip that is not laid out, any sequence of callbacks leaves a fresh view exactly as it was: selections are dropped and no animator is ever started |
| ViewWithIndicator.PlacedAfterLayout | app/src/main/java/com/patrickiv/bottomnavigationindicator/BottomNavigationViewWithIndicator.kt:63-69 | whatever was selected before layout, the pre-draw callback on the laid-out strip is the first placement: the default-size rect on the selected item, above the new strip's bottom offset |
| ViewWithIndicator.SelectionStartsAtIndicator | app/src/main/java/com/patrickiv/bottomnavigationindicator/BottomNavigationViewWithIndicator.kt:88-100 | on a bar of positive width, the first frame of a new transition has the centre and width of the cancelled indicator, so there is no jump |
| ViewWithIndicator.TwoItemExample | app/src/main/java/com/patrickiv/bottomnavigationindicator/BottomNavigationViewWithIndicator.kt:91-100 | 300 px strip, items centred at 50 and 250: after first placement the centre is 50. Selecting the second item takes 500 ms and is centred at 150 at fraction ½ |
| NavigationLayout.MoveTick | app/src/main/java/com/patrickiv/bottomnavigationindicator/BottomNavigationLayout.kt:100-109 | each selection tick sets width = round(size × scale) and centres the view on lerp(fraction, from, itemCenterX). Scale is untouched |
| NavigationLayout.PulseTick | app/src/main/java/com/patrickiv/bottomnavigationindicator/BottomNavigationLayout.kt:131-148 | each pulse tick sets scaleX = scaleY = the animated value. Width and translationX never change, because the early return makes the rest dead |
| NavigationLayout.CancelAnimator | app/src/main/java/com/patrickiv/bottomnavigationindicator/BottomNavigationLayout.kt:117-124 | cancelling empties the slot. A move lands centred on its target at the end-scale width; a pulse lands at its end scale, with width and position unchanged |
| NavigationLayout.StartXAsWritten | app/src/main/java/com/patrickiv/bottomnavigationindicator/BottomNavigationLayout.kt:93 | the start position `indicator.x` is the indicator's left edge: its centre minus half its width |
| NavigationLayout.MoveFrom | app/src/main/java/com/patrickiv/bottomnavigationindicator/BottomNavigationLayout.kt:93-111 | a move uses keyframes currentScale → 9 → 1, with duration 500 ms when animated and 0 otherwise |
| NavigationLayout.OnItemSelected | app/src/main/java/com/patrickiv/bottomnavigationindicator/BottomNavigationLayout.kt:86-115 | not laid out: a no-op. Otherwise the animator is cancelled first, and a move is held only when the item exists; it interpolates from the indicator's `x`, as written. Scale is kept from the cancelled state |
| NavigationLayout.OnItemSelectedCorrected | app/src/main/java/com/patrickiv/bottomnavigationindicator/BottomNavigationLayout.kt:86-115 | the same selection with the start position corrected to the indicator's centre (see Findings) |
| NavigationLayout.OnItemReselected | app/src/main/java/com/patrickiv/bottomnavigationindicator/BottomNavigationLayout.kt:126-154 | with no layout guard, the animator is cancelled and a 1 → 1.5 → 1 pulse of 300 ms is held. The published view is the cancelled one at unit scale |
| NavigationLayout.OnNavigationItemSelected | app/src/main/java/com/patrickiv/bottomnavigationindicator/BottomNavigationLayout.kt:57-63 | returns true exactly when there is no listener or it answers true. On a veto the state is unchanged; otherwise the indicator moves |
| NavigationLayout.OnNavigationItemReselected | app/src/main/java/com/patrickiv/bottomnavigationindicator/BottomNavigationLayout.kt:65-68 | a set reselected-listener is notified, and a pulse is started either way |
| NavigationLayout.OnPreDraw | app/src/main/java/com/patrickiv/bottomnavigationindicator/BottomNavigationLayout.kt:78-84 | first placement: the view is at once centred on the selected item, at the rounded default width, with a zero-duration move |
| NavigationLayout.OnAnimationFrame | app/src/main/java/com/patrickiv/bottomnavigationindicator/BottomNavigationLayout.kt:100-111 | a frame keeps the slot. Once the duration has elapsed, it publishes exactly what cancelling would |
| NavigationLayout.MoveTickWidth | app/src/main/java/com/patrickiv/bottomnavigationindicator/BottomNavigationLayout.kt:102 | with non-negative keyframes, a move tick never gives a negative width |
| NavigationLayout.RunInv | app/src/main/java/com/patrickiv/bottomnavigationindicator/BottomNavigationLayout.kt:99-136 | after any sequence of callbacks on one strip: the width is non-negative, the scale is uniform, and the scale is 1 unless a pulse is held |
| NavigationLayout.SettlesOnLastPlaced | app/src/main/java/com/patrickiv/bottomnavigationindicator/BottomNavigationLayout.kt:86-127 | preemption: after any interleaving of selections, reselections and frames on one strip, ending the animator leaves the view centred on the last item placed, at the rounded default width |
| NavigationLayout.PulsesKeepRestingGeometry | app/src/main/java/com/patrickiv/bottomnavigationindicator/BottomNavigationLayout.kt:126-147 | reselection is idempotent: after any run of pulses and frames, the resting width and position equal those of the first cancellation, at unit scale |
| NavigationLayout.NothingMovesBeforeLayout | app/src/main/java/com/patrickiv/bottomnavigationindicator/BottomNavigationLayout.kt:86-87 | on a strip that is not laid out, selections are dropped and reselections only pulse the scale, so a fresh indicator keeps its rounded default width and zero offset, with at most a pulse held |
| NavigationLayout.MoveEndpoints | app/src/main/java/com/patrickiv/bottomnavigationindicator/BottomNavigationLayout.kt:99-108 | a move starts at the current width, centred on its `from` position, is stretched to round(9 × size) at fraction ½, and ends centred on the target at round(size) |
| NavigationLayout.PulseShape | app/src/main/java/com/patrickiv/bottomnavigationindicator/BottomNavigationLayout.kt:130-134 | the pulse scale stays in [1, 1.5], is 1.5 at fraction ½, and is 1 at both ends |
| NavigationLayout.SelectionStartsAtLeftEdge | app/src/main/java/com/patrickiv/bottomnavigationindicator/BottomNavigationLayout.kt:93-108 | as written, for every input, the first frame of an animated move is centred half a width left of the cancelled indicator's centre, at its width |
| NavigationLayout.SelectionStartsAtIndicator | app/src/main/java/com/patrickiv/bottomnavigationindicator/BottomNavigationLayout.kt:93-108 | with the corrected start, a move's first frame keeps the cancelled view's centre and width |
| NavigationLayout.AsWrittenStartJumps | app/src/main/java/com/patrickiv/bottomnavigationindicator/BottomNavigationLayout.kt:93-108 | as written, an 8 px view centred at 104 is drawn centred at 100 on the first frame of a move |

## Left out

- Drawing and styling are not modelled: `dispatchDraw`, `Paint`, `GradientDrawable`, colours
  and the corner radius. They only render the geometry.
- `doOnPreDraw` scheduling is not modelled. The pre-draw callback is the event `PreDraw`,
  which is an unanimated selection of the selected item.
- Listener registration is not modelled. The external listener's answer is a parameter:
  `None` when no listener is set.
- The interpolator curves `FastOutSlowIn` and `LinearOutSlowIn` are not modelled. They are
  foreign code, so the model keeps any `Easing` with pinned endpoints and values in [0, 1].
- `NavigationLayout.MoveTick` and `ViewWithIndicator.TickRect`: the target item's centre is read
  once, when the transition starts. The source re-reads it on every frame, through
  `getLocationOnScreen` or `itemView.left`. The bar's `height` is still read on every frame.
  The model assumes items do not move while a transition runs.
- `NavigationLayout.MoveTick`: screen coordinates from `getLocationOnScreen` are taken to
  equal the layout's own coordinates. The indicator's `x` is taken to be its `translationX`,
  with the indicator laid out at the layout's left edge.
- `NavigationLayout.OnItemSelected`: `indicator.width` is taken to be the layout-params width
  last set. The lag until the next layout pass is not modelled.
- Density: dp-to-pixel conversion is reduced to a positive density or a
  positive pixel size. The `dp` helpers are not part of this model; `dpRounded` is taken to
  round the pixel size as `roundToInt` does (`NavigationLayout.Initial`).
- Float arithmetic is over exact reals. Rounding of intermediate floats, and NaN/infinity
  outside `calculateDuration`'s zero-width case, are not modelled.
- `ViewWithIndicator.RunInv`: a run holds one strip fixed. Layout, resizes and item moves
  between callbacks are not modelled by `Run`; after a resize the rect keeps its old bottom
  until the next frame or selection, which the invariant's bottom clause does not cover.
- `ViewWithIndicator.SettlesOnLastPlaced`: a run holds one strip fixed, so layout, resizes and
  item moves between callbacks are not covered. The layout transition alone is covered by
  `NothingMovesBeforeLayout` and `PlacedAfterLayout`.
- `NavigationLayout.RunInv`: a run holds one strip fixed. Layout, resizes and item moves
  between callbacks are not modelled by `Run`.
- `NavigationLayout.SettlesOnLastPlaced`: a run holds one strip fixed, so layout, resizes and
  item moves between callbacks are not covered. Callbacks before layout are covered by
  `NothingMovesBeforeLayout`.
- Threads and frame timing are not modelled. Frames are events carrying the elapsed time in
  whole milliseconds.

## Findings

| source | as written | input that shows it | evidently intended | confidence | as-written member | corrected member |
|---|---|---|---|---|---|---|
| app/src/main/java/com/patrickiv/bottomnavigationindicator/BottomNavigationLayout.kt:93 | `from = indicator.x` is the indicator's left edge. The tick at line 108 treats it as a centre by subtracting half the new width, so the first frame of every move jumps left by half the indicator's width | an 8 px indicator with translationX 100 (centre 104): the first frame of a move to any item is centred at 100 | interpolate from the indicator's centre, as the twin `BottomNavigationViewWithIndicator` does with `indicator.centerX()` | medium, not executed | NavigationLayout.SelectionStartsAtLeftEdge | NavigationLayout.SelectionStartsAtIndicator |

`NavigationLayout.OnItemSelected` and the event fold `Run` model the start as written.
`NavigationLayout.OnItemSelectedCorrected` is the corrected selection, and
`SelectionStartsAtIndicator` proves that it starts where the indicator is.
`AsWrittenStartJumps` shows the jump on the concrete input above.

=== FILE: animation.dfy ===
/**
 * The parts of Android's ValueAnimator the indicator relies on, as pure functions:
 * linear interpolation (FloatEvaluator), three evenly spaced float keyframes
 * (ValueAnimator.ofFloat(a, b, c)), the clamped elapsed fraction, and the
 * interpolator, which stays uninterpreted apart from its pinned endpoints.
 */
module Animation {

  function Min(a: real, b: real): (m: real) { if a <= b then a else b }

  function Max(a: real, b: real): (m: real) { if a <= b then b else a }

  /** FloatEvaluator.evaluate(t, a, b). */
  function Lerp(t: real, a: real, b: real): (r: real)
    ensures t == 0.0 ==> r == a
    ensures t == 1.0 ==> r == b
    ensures 0.0 <= t <= 1.0 ==> Min(a, b) <= r <= Max(a, b)
  {
    LerpBetween(t, a, b);
    a + t * (b - a)
  }

  lemma LerpBetween(t: real, a: real, b: real)
    ensures 0.0 <= t <= 1.0 ==> Min(a, b) <= a + t * (b - a) <= Max(a, b)
  {
    if 0.0 <= t <= 1.0 {
      var d := if a <= b then b - a else a - b;
      MulNonNegative(t, d);
      MulNonNegative(1.0 - t, d);
      assert t * d + (1.0 - t) * d == d;
      if a <= b {
        assert t * (b - a) == t * d;
      } else {
        assert t * (b - a) == -(t * d);
      }
    }
  }

  lemma MulNonNegative(x: real, y: real)
    requires 0.0 <= x && 0.0 <= y
    ensures 0.0 <= x * y
  {
  }

  /**
   * The keyframes of ValueAnimator.ofFloat(start, peak, end): placed at fractions 0, 0.5
   * and 1, with linear interpolation inside each interval.
   */
  datatype Keyframes = Keyframes(start: real, peak: real, end: real) {

    function Low(): (m: real) { Min(start, Min(peak, end)) }

    function High(): (m: real) { Max(start, Max(peak, end)) }
  }

  /** The animated value of keyframes k at (interpolated) fraction f. */
  function KeyframeValue(k: Keyframes, f: real): (v: real)
    ensures f == 0.0 ==> v == k.start
    ensures f == 0.5 ==> v == k.peak
    ensures f == 1.0 ==> v == k.end
    ensures 0.0 <= f <= 1.0 ==> k.Low() <= v <= k.High()
  {
    if f < 0.5 then Lerp(2.0 * f, k.start, k.peak) else Lerp(2.0 * f - 1.0, k.peak, k.end)
  }

  /**
   * A time interpolator (FastOutSlowIn, LinearOutSlowIn). Its curve is foreign code;
   * the model only relies on its pinned endpoints and on it staying inside [0, 1].
   */
  type Easing = real -> real

  ghost predicate IsEasing(ease: Easing) {
    && ease(0.0) == 0.0
    && ease(1.0) == 1.0
    && forall t :: 0.0 <= t <= 1.0 ==> 0.0 <= ease(t) <= 1.0
  }

  /**
   * The elapsed fraction of a run that started `elapsed` milliseconds ago: clamped to 1
   * at completion, and 1 straight away for a zero duration.
   */
  function ElapsedFraction(elapsed: nat, duration: nat): (f: real)
    ensures 0.0 <= f <= 1.0
    ensures f == 1.0 <==> elapsed >= duration
    ensures elapsed == 0 && duration > 0 ==> f == 0.0
  {
    if elapsed >= duration then 1.0 else elapsed as real / duration as real
  }

  /** The animator's `animatedFraction`: the elapsed fraction passed through the interpolator. */
  function AnimatedFraction(ease: Easing, elapsed: nat, duration: nat): (f: real)
    requires IsEasing(ease)
    ensures 0.0 <= f <= 1.0
    ensures elapsed >= duration ==> f == 1.0
    ensures elapsed == 0 && duration > 0 ==> f == 0.0
  {
    ease(ElapsedFraction(elapsed, duration))
  }
}

=== FILE: conversions.dfy ===
/**
 * Kotlin's float-to-integer conversions, stated over exact reals.
 * IEEE rounding of the float operands themselves is not modelled.
 */
module Conversions {

  /** Long.MAX_VALUE, where a float-to-long conversion saturates. */
  const LongMax: int := 0x7FFF_FFFF_FFFF_FFFF

  /** `roundToInt`: the nearest integer, ties going toward positive infinity. */
  function Round(x: real): (r: int)
    ensures r as real - 0.5 <= x < r as real + 0.5
  {
    (x + 0.5).Floor
  }

  /** `toLong` of a non-negative value: truncation toward zero, saturating at Long.MAX_VALUE. */
  function ToLong(x: real): (r: int)
    requires x >= 0.0
    ensures 0 <= r <= LongMax
    ensures x < LongMax as real ==> r as real <= x < r as real + 1.0
    ensures x >= LongMax as real ==> r == LongMax
  {
    if x >= LongMax as real then LongMax else x.Floor
  }

  /** Rounding an integral value gives it back. */
  lemma RoundIntegral(n: int)
    ensures Round(n as real) == n
  {
  }

  /** Rounding never makes a non-negative value negative. */
  lemma RoundNonNegative(x: real)
    requires x >= 0.0
    ensures Round(x) >= 0
  {
  }

  /** `toLong` is monotone. */
  lemma ToLongMonotone(x: real, y: real)
    requires 0.0 <= x <= y
    ensures ToLong(x) <= ToLong(y)
  {
  }
}

=== FILE: navigation.dfy ===
/**
 * The BottomNavigationView collaborator the indicator consumes: whether the strip has
 * been laid out, its size, the horizontal extent of each menu item, and the answer of
 * the external selected-listener.
 */
module Navigation {
  import opened Optional

  type ItemId = int

  /** An item view's horizontal extent. */
  datatype Item = Item(left: real, width: real) {
    function CenterX(): real { left + width / 2.0 }
  }

  datatype Strip = Strip(laidOut: bool, width: real, height: real, items: map<ItemId, Item>) {

    predicate Valid() { width >= 0.0 && height >= 0.0 }

    /** findViewById(id): the item view, or null. */
    function Find(id: ItemId): (r: Option<Item>) {
      if id in items then Some(items[id]) else None
    }
  }

  /**
   * `externalSelectedListener?.onNavigationItemSelected(item) != false`, where `answer`
   * is None when no listener is set.
   */
  predicate Proceeds(answer: Option<bool>) {
    answer != Some(false)
  }

  /** The outcome of onNavigationItemSelected: the value returned to the view, and the new state. */
  datatype Dispatch<S> = Dispatch(handled: bool, state: S)
}

=== FILE: navigation_layout.dfy ===
/**
 * BottomNavigationLayout: the variant that moves a child view. A selection animates the
 * view's layout width and translationX; a reselection pulses its uniform scale. Both
 * share one animator slot, which every event cancels before starting its own animator.
 */
module NavigationLayout {
  import opened Optional
  import opened Conversions
  import opened Animation
  import opened Navigation

  const TranslationDuration: nat := 500
  const StretchScale: real := 9.0
  const RestScale: real := 1.0
  const ScaleMax: real := 1.5
  const ScaleDuration: nat := 300

  /** The indicator's size in pixels, INDICATOR_SIZE_DP converted by the display density. */
  datatype Config = Config(size: real) {
    predicate Valid() { size > 0.0 }
  }

  /**
   * The indicator child view: its layout-params width in pixels, its translationX, and
   * its scaleX and scaleY. Its layout position is the strip's left edge, so its `x` is
   * its translationX.
   */
  datatype Indicator = Indicator(width: int, translationX: real, scaleX: real, scaleY: real) {

    function X(): real { translationX }

    function CenterX(): real { translationX + width as real / 2.0 }
  }

  /** The two kinds of animator the slot can hold. */
  datatype Animator =
    | Move(target: Item, from: real, frames: Keyframes, duration: nat)
    | Pulse(frames: Keyframes, duration: nat)

  datatype State = State(indicator: Indicator, animator: Option<Animator>)

  /**
   * A fresh layout: the indicator has the rounded default width, no offset, unit scale.
   * `INDICATOR_SIZE_DP.dpRounded` is taken to be the configured size rounded as
   * `roundToInt` rounds; the `dp` helpers are not part of this model.
   */
  function Initial(cfg: Config): (r: State) {
    State(Indicator(Round(cfg.size), 0.0, 1.0, 1.0), None)
  }

  /** The keyframes of the reselection pulse. */
  const PulseFrames: Keyframes := Keyframes(RestScale, ScaleMax, RestScale)

  /**
   * The outcome of onNavigationItemReselected: whether an external listener was called,
   * and the new state. What the listener itself does is outside the model.
   */
  datatype Reselection = Reselection(notified: bool, state: State)

  /**
   * The selection's update listener at animated fraction f: the width becomes the rounded
   * scaled size and the indicator is centred on the linearly interpolated position; the
   * scale is left alone.
   */
  function MoveTick(target: Item, from: real, frames: Keyframes, f: real, v: Indicator, cfg: Config): (r: Indicator)
    ensures r.width == Round(cfg.size * KeyframeValue(frames, f))
    ensures r.CenterX() == Lerp(f, from, target.CenterX())
    ensures r.scaleX == v.scaleX && r.scaleY == v.scaleY
  {
    var newWidth := Round(cfg.size * KeyframeValue(frames, f));
    var distanceTravelled := Lerp(f, from, target.CenterX());
    v.(width := newWidth, translationX := distanceTravelled - newWidth as real / 2.0)
  }

  /**
   * The pulse's update listener at animated fraction f: a uniform scale. The listener
   * returns before its width and position update, so neither ever changes.
   */
  function PulseTick(frames: Keyframes, f: real, v: Indicator): (r: Indicator)
    ensures r.scaleX == r.scaleY == KeyframeValue(frames, f)
    ensures r.width == v.width && r.translationX == v.translationX
  {
    var scale := KeyframeValue(frames, f);
    v.(scaleX := scale, scaleY := scale)
  }

  /** The update listener of whichever animator is held. */
  function Tick(a: Animator, f: real, v: Indicator, cfg: Config): (r: Indicator) {
    match a
    case Move(target, from, frames, _) => MoveTick(target, from, frames, f, v, cfg)
    case Pulse(frames, _) => PulseTick(frames, f, v)
  }

  /**
   * cancelAnimator: `end()` publishes the running animator's fraction-1 frame, then the
   * listeners are removed and the slot is emptied. Without an animator nothing changes.
   */
  function CancelAnimator(s: State, cfg: Config): (r: State)
    ensures r.animator == None
    ensures s.animator == None ==> r == s
    ensures s.animator.Some? && s.animator.value.Move? ==>
      && r.indicator.CenterX() == s.animator.value.target.CenterX()
      && r.indicator.width == Round(cfg.size * s.animator.value.frames.end)
      && r.indicator.scaleX == s.indicator.scaleX && r.indicator.scaleY == s.indicator.scaleY
    ensures s.animator.Some? && s.animator.value.Pulse? ==>
      && r.indicator.width == s.indicator.width
      && r.indicator.translationX == s.indicator.translationX
      && r.indicator.scaleX == r.indicator.scaleY == s.animator.value.frames.end
  {
    match s.animator
    case None => s
    case Some(a) => State(Tick(a, 1.0, s.indicator, cfg), None)
  }

  /**
   * The position a selection interpolates from, as written: the indicator's `x`, which
   * is its left edge. The move tick treats it as a centre.
   */
  function StartXAsWritten(v: Indicator): (x: real)
    ensures x == v.CenterX() - v.width as real / 2.0
  {
    v.X()
  }

  /** The position a selection should interpolate from: the indicator's centre. */
  function StartCenterX(v: Indicator): (x: real) {
    v.CenterX()
  }

  /** The move a laid-out selection of `target` starts from the indicator `v`. */
  function MoveFrom(v: Indicator, cfg: Config, from: real, target: Item, animate: bool): (a: Animator)
    requires cfg.Valid()
    ensures a.Move? && a.target == target && a.from == from
    ensures a.frames == Keyframes(v.width as real / cfg.size, StretchScale, RestScale)
    ensures a.duration == if animate then TranslationDuration else 0
  {
    var currentScale := v.width as real / cfg.size;
    Move(target, from, Keyframes(currentScale, StretchScale, RestScale),
         if animate then TranslationDuration else 0)
  }

  /** Holds a move from the cancelled state `c` and publishes its frame at play time 0. */
  function StartMove(c: State, cfg: Config, ease: Easing, from: real, item: Item, animate: bool): (r: State)
    requires cfg.Valid() && IsEasing(ease)
    ensures r.animator == Some(MoveFrom(c.indicator, cfg, from, item, animate))
  {
    var a := MoveFrom(c.indicator, cfg, from, item, animate);
    State(Tick(a, AnimatedFraction(ease, 0, a.duration), c.indicator, cfg), Some(a))
  }

  /**
   * onItemSelected(itemId, animate): ignored before layout; otherwise the running
   * animator is cancelled first, and a move is started only when the item view exists.
   * The move interpolates from the indicator's `x`, as written. Starting publishes the
   * frame at play time 0.
   */
  function OnItemSelected(s: State, strip: Strip, cfg: Config, ease: Easing, itemId: ItemId, animate: bool): (r: State)
    requires cfg.Valid() && IsEasing(ease)
    ensures !strip.laidOut ==> r == s
    ensures strip.laidOut && itemId !in strip.items ==> r == CancelAnimator(s, cfg)
    ensures strip.laidOut && itemId in strip.items ==>
      var c := CancelAnimator(s, cfg).indicator;
      && r.animator == Some(MoveFrom(c, cfg, StartXAsWritten(c), strip.items[itemId], animate))
      && r.indicator.scaleX == c.scaleX && r.indicator.scaleY == c.scaleY
  {
    if !strip.laidOut then s
    else
      var c := CancelAnimator(s, cfg);
      match strip.Find(itemId)
      case None => c
      case Some(item) => StartMove(c, cfg, ease, StartXAsWritten(c.indicator), item, animate)
  }

  /**
   * onItemSelected with the start position corrected to the indicator's centre; every
   * other step is the same as in OnItemSelected.
   */
  function OnItemSelectedCorrected(s: State, strip: Strip, cfg: Config, ease: Easing, itemId: ItemId, animate: bool): (r: State)
    requires cfg.Valid() && IsEasing(ease)
    ensures !strip.laidOut ==> r == s
    ensures strip.laidOut && itemId !in strip.items ==> r == CancelAnimator(s, cfg)
    ensures strip.laidOut && itemId in strip.items ==>
      var c := CancelAnimator(s, cfg).indicator;
      r.animator == Some(MoveFrom(c, cfg, c.CenterX(), strip.items[itemId], animate))
  {
    if !strip.laidOut then s
    else
      var c := CancelAnimator(s, cfg);
      match strip.Find(itemId)
      case None => c
      case Some(item) => StartMove(c, cfg, ease, StartCenterX(c.indicator), item, animate)
  }

  /**
   * onItemReselected: no layout guard; the running animator is cancelled and a
   * 300 ms pulse 1 -> 1.5 -> 1 is started, which leaves width and position alone.
   */
  function OnItemReselected(s: State, cfg: Config, ease: Easing): (r: State)
    requires cfg.Valid() && IsEasing(ease)
    ensures r.animator == Some(Pulse(PulseFrames, ScaleDuration))
    ensures var c := CancelAnimator(s, cfg).indicator;
      r.indicator == c.(scaleX := RestScale, scaleY := RestScale)
  {
    var c := CancelAnimator(s, cfg);
    var a := Pulse(PulseFrames, ScaleDuration);
    State(Tick(a, AnimatedFraction(ease, 0, a.duration), c.indicator, cfg), Some(a))
  }

  /**
   * onNavigationItemSelected: a `false` from the external listener vetoes the selection,
   * leaves the indicator alone and is returned; otherwise the indicator moves and `true`
   * is returned.
   */
  function OnNavigationItemSelected(s: State, strip: Strip, cfg: Config, ease: Easing, itemId: ItemId, answer: Option<bool>): (r: Dispatch<State>)
    requires cfg.Valid() && IsEasing(ease)
    ensures r.handled <==> answer.None? || answer.value
    ensures !r.handled ==> r.state == s
    ensures r.handled ==> r.state == OnItemSelected(s, strip, cfg, ease, itemId, true)
  {
    if Proceeds(answer) then Dispatch(true, OnItemSelected(s, strip, cfg, ease, itemId, true))
    else Dispatch(false, s)
  }

  /**
   * onNavigationItemReselected: the external reselected-listener, when one is set, is
   * notified, and the pulse starts whether or not one is set.
   */
  function OnNavigationItemReselected(s: State, cfg: Config, ease: Easing, hasListener: bool): (r: Reselection)
    requires cfg.Valid() && IsEasing(ease)
    ensures r.notified == hasListener
    ensures r.state.animator.Some? && r.state.animator.value.Pulse?
    ensures r.state == OnItemReselected(s, cfg, ease)
  {
    Reselection(hasListener, OnItemReselected(s, cfg, ease))
  }

  /**
   * The pre-draw callback scheduled by onAttachedToWindow: an unanimated selection of the
   * currently selected item.
   */
  function OnPreDraw(s: State, strip: Strip, cfg: Config, ease: Easing, selectedId: ItemId): (r: State)
    requires cfg.Valid() && IsEasing(ease)
    ensures strip.laidOut && selectedId in strip.items ==>
      && r.indicator.CenterX() == strip.items[selectedId].CenterX()
      && r.indicator.width == Round(cfg.size)
      && r.animator.Some? && r.animator.value.duration == 0
    ensures !strip.laidOut ==> r == s
  {
    OnItemSelected(s, strip, cfg, ease, selectedId, false)
  }

  /**
   * A display frame `elapsed` milliseconds after the running animator started: that
   * frame is published and the slot is kept. Once the duration has passed, the
   * published indicator is the one cancelling would publish.
   */
  function OnAnimationFrame(s: State, cfg: Config, ease: Easing, elapsed: nat): (r: State)
    requires IsEasing(ease)
    ensures r.animator == s.animator
    ensures s.animator == None ==> r == s
    ensures s.animator.Some? && elapsed >= s.animator.value.duration ==>
      r.indicator == CancelAnimator(s, cfg).indicator
  {
    match s.animator
    case None => s
    case Some(a) => s.(indicator := Tick(a, AnimatedFraction(ease, elapsed, a.duration), s.indicator, cfg))
  }

  /** The callbacks the layout receives. It does not override onDetachedFromWindow. */
  datatype Event =
    | ItemSelected(itemId: ItemId, answer: Option<bool>)
    | ItemReselected(hasListener: bool)
    | PreDraw(selectedId: ItemId)
    | AnimationFrame(elapsed: nat)

  function Step(s: State, strip: Strip, cfg: Config, ease: Easing, e: Event): (r: State)
    requires cfg.Valid() && IsEasing(ease)
  {
    match e
    case ItemSelected(id, answer) => OnNavigationItemSelected(s, strip, cfg, ease, id, answer).state
    case ItemReselected(hasListener) => OnNavigationItemReselected(s, cfg, ease, hasListener).state
    case PreDraw(id) => OnPreDraw(s, strip, cfg, ease, id)
    case AnimationFrame(elapsed) => OnAnimationFrame(s, cfg, ease, elapsed)
  }

  function Run(s: State, strip: Strip, cfg: Config, ease: Easing, events: seq<Event>): (r: State)
    requires cfg.Valid() && IsEasing(ease)
    decreases |events|
  {
    if |events| == 0 then s
    else Step(Run(s, strip, cfg, ease, events[..|events| - 1]), strip, cfg, ease, events[|events| - 1])
  }

  /** The item an event moves the indicator to, if any. */
  function Placed(strip: Strip, e: Event): (r: Option<Item>) {
    match e
    case ItemSelected(id, answer) => if strip.laidOut && Proceeds(answer) then strip.Find(id) else None
    case PreDraw(id) => if strip.laidOut then strip.Find(id) else None
    case ItemReselected(_) => None
    case AnimationFrame(_) => None
  }

  /** The last item any of the events moved the indicator to. */
  function LastPlaced(strip: Strip, events: seq<Event>): (r: Option<Item>)
    decreases |events|
  {
    if |events| == 0 then None
    else match Placed(strip, events[|events| - 1])
      case Some(item) => Some(item)
      case None => LastPlaced(strip, events[..|events| - 1])
  }

  /**
   * The invariant of the indicator view: its width is never negative, its scale is
   * uniform, and it is 1 unless a pulse is running; a held move has non-negative
   * keyframes and a held pulse has the pulse keyframes.
   */
  predicate Inv(s: State) {
    && s.indicator.width >= 0
    && s.indicator.scaleX == s.indicator.scaleY
    && (s.animator.None? || s.animator.value.Move? ==> s.indicator.scaleX == RestScale)
    && (s.animator.Some? && s.animator.value.Move? ==> s.animator.value.frames.Low() >= 0.0)
    && (s.animator.Some? && s.animator.value.Pulse? ==> s.animator.value.frames == PulseFrames)
  }

  lemma InitialInv(cfg: Config)
    requires cfg.Valid()
    ensures Inv(Initial(cfg))
  {
  }

  /** A move tick at a fraction in [0, 1] never gives a negative width. */
  lemma MoveTickWidth(a: Animator, f: real, v: Indicator, cfg: Config)
    requires cfg.Valid() && a.Move? && a.frames.Low() >= 0.0 && 0.0 <= f <= 1.0
    ensures Tick(a, f, v, cfg).width >= 0
  {
    MulNonNegative(cfg.size, KeyframeValue(a.frames, f));
    RoundNonNegative(cfg.size * KeyframeValue(a.frames, f));
  }

  lemma CancelInv(s: State, cfg: Config)
    requires cfg.Valid() && Inv(s)
    ensures Inv(CancelAnimator(s, cfg))
  {
    if s.animator.Some? && s.animator.value.Move? {
      MoveTickWidth(s.animator.value, 1.0, s.indicator, cfg);
    }
  }

  /** Every callback keeps the invariant. */
  lemma StepInv(s: State, strip: Strip, cfg: Config, ease: Easing, e: Event)
    requires cfg.Valid() && IsEasing(ease) && Inv(s)
    ensures Inv(Step(s, strip, cfg, ease, e))
  {
    CancelInv(s, cfg);
    var c := CancelAnimator(s, cfg);
    match e
    case ItemSelected(id, _) =>
      SelectInv(c, strip, cfg, ease, id, true);
      assert OnItemSelected(s, strip, cfg, ease, id, true) == OnItemSelected(c, strip, cfg, ease, id, true) || !strip.laidOut;
    case PreDraw(id) =>
      SelectInv(c, strip, cfg, ease, id, false);
      assert OnItemSelected(s, strip, cfg, ease, id, false) == OnItemSelected(c, strip, cfg, ease, id, false) || !strip.laidOut;
    case ItemReselected(_) =>
    case AnimationFrame(elapsed) =>
      if s.animator.Some? && s.animator.value.Move? {
        MoveTickWidth(s.animator.value, AnimatedFraction(ease, elapsed, s.animator.value.duration), s.indicator, cfg);
      }
  }

  /** A selection from a state with an empty slot keeps the invariant. */
  lemma SelectInv(c: State, strip: Strip, cfg: Config, ease: Easing, id: ItemId, animate: bool)
    requires cfg.Valid() && IsEasing(ease) && Inv(c) && c.animator == None
    ensures Inv(OnItemSelected(c, strip, cfg, ease, id, animate))
  {
    if strip.laidOut && id in strip.items {
      var a := MoveFrom(c.indicator, cfg, StartXAsWritten(c.indicator), strip.items[id], animate);
      assert a.frames.start >= 0.0 by {
        assert c.indicator.width as real >= 0.0;
      }
      MoveTickWidth(a, AnimatedFraction(ease, 0, a.duration), c.indicator, cfg);
    }
  }

  /** The invariant holds after any sequence of callbacks. */
  lemma {:induction false} RunInv(s: State, strip: Strip, cfg: Config, ease: Easing, events: seq<Event>)
    requires cfg.Valid() && IsEasing(ease) && Inv(s)
    ensures Inv(Run(s, strip, cfg, ease, events))
    decreases |events|
  {
    if |events| > 0 {
      RunInv(s, strip, cfg, ease, events[..|events| - 1]);
      StepInv(Run(s, strip, cfg, ease, events[..|events| - 1]), strip, cfg, ease, events[|events| - 1]);
    }
  }

  /**
   * Preemption: however selections and reselections interrupt each other, once the last
   * animator is ended the indicator rests exactly on the last item it was sent to, with
   * the rounded default width and an empty slot.
   */
  lemma {:induction false} SettlesOnLastPlaced(s: State, strip: Strip, cfg: Config, ease: Easing, events: seq<Event>)
    requires cfg.Valid() && IsEasing(ease)
    requires LastPlaced(strip, events).Some?
    ensures var r := CancelAnimator(Run(s, strip, cfg, ease, events), cfg);
      && r.animator == None
      && r.indicator.CenterX() == LastPlaced(strip, events).value.CenterX()
      && r.indicator.width == Round(cfg.size)
    decreases |events|
  {
    var init := events[..|events| - 1];
    var e := events[|events| - 1];
    var p := Run(s, strip, cfg, ease, init);
    var q := Run(s, strip, cfg, ease, events);
    assert q == Step(p, strip, cfg, ease, e);
    if Placed(strip, e).None? {
      SettlesOnLastPlaced(s, strip, cfg, ease, init);
      var cp := CancelAnimator(p, cfg).indicator;
      var cq := CancelAnimator(q, cfg).indicator;
      assert cq.width == cp.width && cq.translationX == cp.translationX;
    }
  }

  /**
   * Reselection is idempotent: after any run of reselections and frames, ending the
   * last animator leaves the indicator's width and position exactly where ending the
   * first one did, at unit scale.
   */
  lemma {:induction false} PulsesKeepRestingGeometry(s: State, strip: Strip, cfg: Config, ease: Easing, events: seq<Event>)
    requires cfg.Valid() && IsEasing(ease) && Inv(s)
    requires forall i :: 0 <= i < |events| ==> events[i].ItemReselected? || events[i].AnimationFrame?
    ensures var r := CancelAnimator(Run(s, strip, cfg, ease, events), cfg).indicator;
      var c := CancelAnimator(s, cfg).indicator;
      && r.width == c.width
      && r.translationX == c.translationX
      && r.scaleX == r.scaleY == RestScale
    decreases |events|
  {
    RunInv(s, strip, cfg, ease, events);
    CancelInv(Run(s, strip, cfg, ease, events), cfg);
    if |events| > 0 {
      var init := events[..|events| - 1];
      PulsesKeepRestingGeometry(s, strip, cfg, ease, init);
      var p := Run(s, strip, cfg, ease, init);
      var cp := CancelAnimator(p, cfg).indicator;
      var cq := CancelAnimator(Run(s, strip, cfg, ease, events), cfg).indicator;
      assert cq.width == cp.width && cq.translationX == cp.translationX;
    } else {
      CancelInv(s, cfg);
    }
  }

  /**
   * Before layout the indicator is neither moved nor resized: on a strip that is not
   * laid out, selections and pre-draw callbacks are dropped, while reselections, which
   * have no layout guard, only pulse its scale. From a fresh layout the indicator keeps
   * its rounded default width and zero offset, and the slot holds at most a pulse.
   */
  lemma {:induction false} NothingMovesBeforeLayout(strip: Strip, cfg: Config, ease: Easing, events: seq<Event>)
    requires cfg.Valid() && IsEasing(ease) && !strip.laidOut
    ensures var r := Run(Initial(cfg), strip, cfg, ease, events);
      && r.indicator.width == Round(cfg.size)
      && r.indicator.translationX == 0.0
      && (r.animator.None? || r.animator.value == Pulse(PulseFrames, ScaleDuration))
    decreases |events|
  {
    if |events| > 0 {
      NothingMovesBeforeLayout(strip, cfg, ease, events[..|events| - 1]);
    }
  }

  /**
   * The shape of a move: it starts at the current width, is stretched to nine times the
   * size halfway, and rests centred on its target at the rounded default width.
   */
  lemma MoveEndpoints(v: Indicator, cfg: Config, from: real, target: Item, animate: bool)
    requires cfg.Valid() && v.width >= 0
    ensures var a := MoveFrom(v, cfg, from, target, animate);
      && Tick(a, 0.0, v, cfg).width == v.width
      && Tick(a, 0.0, v, cfg).CenterX() == from
      && Tick(a, 0.5, v, cfg).width == Round(StretchScale * cfg.size)
      && Tick(a, 1.0, v, cfg).width == Round(cfg.size)
      && Tick(a, 1.0, v, cfg).CenterX() == target.CenterX()
  {
    var a := MoveFrom(v, cfg, from, target, animate);
    assert cfg.size * KeyframeValue(a.frames, 0.0) == v.width as real;
    RoundIntegral(v.width);
    assert cfg.size * KeyframeValue(a.frames, 0.5) == StretchScale * cfg.size;
  }

  /** The pulse peaks at 1.5 halfway and stays between 1 and 1.5 throughout. */
  lemma PulseShape(f: real, v: Indicator, cfg: Config)
    requires 0.0 <= f <= 1.0
    ensures var r := Tick(Pulse(PulseFrames, ScaleDuration), f, v, cfg);
      && RestScale <= r.scaleX <= ScaleMax
      && (f == 0.5 ==> r.scaleX == ScaleMax)
      && (f == 0.0 || f == 1.0 ==> r.scaleX == RestScale)
  {
  }

  /**
   * As written, a selection starts half a width to the left of the indicator: the first
   * frame of an animated move is centred on the cancelled indicator's left edge, at its
   * width.
   */
  lemma SelectionStartsAtLeftEdge(s: State, strip: Strip, cfg: Config, ease: Easing, itemId: ItemId)
    requires cfg.Valid() && IsEasing(ease)
    requires strip.laidOut && itemId in strip.items
    ensures var c := CancelAnimator(s, cfg).indicator;
      var r := OnItemSelected(s, strip, cfg, ease, itemId, true).indicator;
      r.CenterX() == c.CenterX() - c.width as real / 2.0 && r.width == c.width
  {
    var c := CancelAnimator(s, cfg).indicator;
    var a := MoveFrom(c, cfg, StartXAsWritten(c), strip.items[itemId], true);
    assert AnimatedFraction(ease, 0, a.duration) == 0.0;
    assert cfg.size * KeyframeValue(a.frames, 0.0) == c.width as real;
    RoundIntegral(c.width);
  }

  /**
   * With the corrected start position, a selection starts where the indicator is: the
   * first frame of an animated move keeps the cancelled indicator's centre and width.
   */
  lemma SelectionStartsAtIndicator(s: State, strip: Strip, cfg: Config, ease: Easing, itemId: ItemId)
    requires cfg.Valid() && IsEasing(ease)
    requires strip.laidOut && itemId in strip.items
    ensures var c := CancelAnimator(s, cfg).indicator;
      var r := OnItemSelectedCorrected(s, strip, cfg, ease, itemId, true).indicator;
      r.CenterX() == c.CenterX() && r.width == c.width
  {
    var c := CancelAnimator(s, cfg).indicator;
    var a := MoveFrom(c, cfg, StartCenterX(c), strip.items[itemId], true);
    assert AnimatedFraction(ease, 0, a.duration) == 0.0;
    assert cfg.size * KeyframeValue(a.frames, 0.0) == c.width as real;
    RoundIntegral(c.width);
  }

  /**
   * The start position as written: interpolating from the indicator's left edge makes
   * the first frame of a move jump left by half the indicator's width. An 8-pixel
   * indicator centred at 104 is drawn centred at 100.
   */
  lemma AsWrittenStartJumps()
    ensures var cfg := Config(8.0);
      var v := Indicator(8, 100.0, 1.0, 1.0);
      var a := MoveFrom(v, cfg, StartXAsWritten(v), Item(200.0, 100.0), true);
      && v.CenterX() == 104.0
      && Tick(a, 0.0, v, cfg).CenterX() == 100.0
  {
    var cfg := Config(8.0);
    var v := Indicator(8, 100.0, 1.0, 1.0);
    var a := MoveFrom(v, cfg, StartXAsWritten(v), Item(200.0, 100.0), true);
    assert cfg.size * KeyframeValue(a.frames, 0.0) == 8.0;
    RoundIntegral(8);
  }
}

=== FILE: optional.dfy ===
/** The Some/None datatype used for nullable references: the animator slot and item lookups. */
module Optional {

  datatype Option<+T> = None | Some(value: T)
}

=== FILE: view_with_indicator.dfy ===
/**
 * BottomNavigationViewWithIndicator: the variant that paints the indicator as a
 * rectangle. The indicator is a RectF; a selection replaces the single animator
 * slot with a translate transition whose duration grows with the distance travelled.
 */
module ViewWithIndicator {
  import opened Optional
  import opened Conversions
  import opened Animation
  import opened Navigation

  const DefaultSizeDp: real := 4.0
  const BottomMarginDp: real := 6.0
  const DefaultScale: real := 1.0
  const MaxScale: real := 15.0
  const BaseDuration: nat := 300
  const VariableDuration: nat := 300

  /** The display density the dp constants are multiplied by. */
  datatype Config = Config(density: real) {

    predicate Valid() { density > 0.0 }

    function DefaultSize(): real { DefaultSizeDp * density }

    function BottomOffset(): real { BottomMarginDp * density }
  }

  /** A RectF. */
  datatype Rect = Rect(left: real, top: real, right: real, bottom: real) {

    function CenterX(): real { (left + right) / 2.0 }

    function Width(): real { right - left }

    function Height(): real { bottom - top }
  }

  /**
   * One started translate animator: the item view it travels to, the indicator's
   * centre when it started, its scale keyframes and its duration in milliseconds.
   */
  datatype Transition = Transition(target: Item, fromCenterX: real, frames: Keyframes, duration: nat)

  /** The painted rectangle and the single animator slot. */
  datatype State = State(indicator: Rect, animator: Option<Transition>)

  /** A fresh view: an empty RectF at the origin and no animator. */
  const Initial: State := State(Rect(0.0, 0.0, 0.0, 0.0), None)

  /** The distance from the indicator's centre to the target item's centre. */
  function Distance(fromCenterX: real, target: Item): (d: real)
    ensures d >= 0.0
    ensures d == 0.0 <==> fromCenterX == target.CenterX()
    ensures fromCenterX + d == target.CenterX() || fromCenterX - d == target.CenterX()
  {
    if fromCenterX <= target.CenterX() then target.CenterX() - fromCenterX
    else fromCenterX - target.CenterX()
  }

  /**
   * calculateDuration: `(300 + 300 * distance / width).toLong()`, with Kotlin's float
   * semantics for a zero width: 0/0 is NaN, which converts to 0, and a positive
   * distance over 0 is +Infinity, which saturates at Long.MAX_VALUE.
   */
  function CalculateDuration(distance: real, width: real): (ms: nat)
    requires distance >= 0.0 && width >= 0.0
    ensures ms <= LongMax
    ensures width > 0.0 ==> BaseDuration <= ms
    ensures width > 0.0 && distance == 0.0 ==> ms == BaseDuration
    ensures width > 0.0 && distance < width ==> ms < BaseDuration + VariableDuration
    ensures width == 0.0 ==> (ms == 0 <==> distance == 0.0)
    ensures width == 0.0 && distance > 0.0 ==> ms == LongMax
    ensures width > 0.0 && BaseDuration as real + VariableDuration as real * distance / width < LongMax as real ==>
      ms as real <= BaseDuration as real + VariableDuration as real * distance / width < ms as real + 1.0
  {
    if width == 0.0 then
      (if distance == 0.0 then 0 else LongMax)
    else
      DurationRatioBound(distance, width);
      ToLong(BaseDuration as real + VariableDuration as real * distance / width)
  }

  lemma DurationRatioBound(distance: real, width: real)
    requires distance >= 0.0 && width > 0.0
    ensures 0.0 <= VariableDuration as real * distance / width
    ensures distance < width ==> VariableDuration as real * distance / width < VariableDuration as real
  {
    var v := VariableDuration as real;
    assert v * distance / width == v * (distance / width);
    assert distance / width >= 0.0;
    if distance < width {
      assert distance / width < 1.0;
    }
  }

  /** For a positive view width, a longer hop never gets a shorter transition. */
  lemma DurationMonotone(d1: real, d2: real, width: real)
    requires 0.0 <= d1 <= d2 && width > 0.0
    ensures CalculateDuration(d1, width) <= CalculateDuration(d2, width)
  {
    var v := VariableDuration as real;
    DurationRatioBound(d1, width);
    DurationRatioBound(d2, width);
    assert v * d1 / width <= v * d2 / width by {
      assert v * d2 / width - v * d1 / width == v * ((d2 - d1) / width);
      assert (d2 - d1) / width >= 0.0;
    }
    ToLongMonotone(BaseDuration as real + v * d1 / width, BaseDuration as real + v * d2 / width);
  }

  /**
   * Because the duration is truncated to whole milliseconds, distinct distances can share
   * a duration: on a 300-pixel strip, hops of 0 and 0.5 pixels both take 300 ms.
   */
  lemma DurationPlateau()
    ensures CalculateDuration(0.0, 300.0) == CalculateDuration(0.5, 300.0) == BaseDuration
  {
    assert VariableDuration as real * 0.5 / 300.0 == 0.5;
  }

  /**
   * The update listener: the rectangle published for animated fraction f, with the
   * view's current height.
   */
  function TickRect(t: Transition, f: real, strip: Strip, cfg: Config): (r: Rect)
    ensures r.Width() == cfg.DefaultSize() * KeyframeValue(t.frames, f)
    ensures r.CenterX() == Lerp(f, t.fromCenterX, t.target.CenterX())
    ensures r.bottom == strip.height - cfg.BottomOffset()
    ensures r.Height() == cfg.DefaultSize()
  {
    var indicatorWidth := cfg.DefaultSize() * KeyframeValue(t.frames, f);
    var distanceTravelled := Lerp(f, t.fromCenterX, t.target.CenterX());
    var bottom := strip.height - cfg.BottomOffset();
    Rect(distanceTravelled - indicatorWidth / 2.0, bottom - cfg.DefaultSize(),
         distanceTravelled + indicatorWidth / 2.0, bottom)
  }

  /**
   * The endpoints of a tick: at fraction 0 the rectangle is centred where the transition
   * started with the starting scale; at fraction 1 it rests on the target item at the
   * default scale; in between its width never drops below the smallest keyframe.
   */
  lemma TickEndpoints(t: Transition, f: real, strip: Strip, cfg: Config)
    requires cfg.Valid() && 0.0 <= f <= 1.0
    ensures f == 0.0 ==> TickRect(t, f, strip, cfg).CenterX() == t.fromCenterX
    ensures f == 0.0 ==> TickRect(t, f, strip, cfg).Width() == cfg.DefaultSize() * t.frames.start
    ensures f == 1.0 ==> TickRect(t, f, strip, cfg).CenterX() == t.target.CenterX()
    ensures f == 1.0 ==> TickRect(t, f, strip, cfg).Width() == cfg.DefaultSize() * t.frames.end
    ensures f == 0.5 ==> TickRect(t, f, strip, cfg).Width() == cfg.DefaultSize() * t.frames.peak
    ensures TickRect(t, f, strip, cfg).Width() >= cfg.DefaultSize() * t.frames.Low()
  {
    var v := KeyframeValue(t.frames, f);
    assert v >= t.frames.Low();
    assert cfg.DefaultSize() * v - cfg.DefaultSize() * t.frames.Low()
        == cfg.DefaultSize() * (v - t.frames.Low());
    MulNonNegative(cfg.DefaultSize(), v - t.frames.Low());
  }

  /**
   * cancelAnimator: `end()` jumps the running animator to fraction 1, which publishes its
   * terminal rectangle, and then the slot is emptied. Without an animator nothing changes.
   */
  function CancelAnimator(s: State, strip: Strip, cfg: Config): (r: State)
    ensures r.animator == None
    ensures s.animator == None ==> r == s
    ensures s.animator.Some? ==> r.indicator.CenterX() == s.animator.value.target.CenterX()
    ensures s.animator.Some? ==> r.indicator.Width() == cfg.DefaultSize() * s.animator.value.frames.end
    ensures s.animator.Some? ==> r.indicator.Height() == cfg.DefaultSize()
    ensures s.animator.Some? ==> r.indicator.bottom == strip.height - cfg.BottomOffset()
  {
    match s.animator
    case None => s
    case Some(t) => State(TickRect(t, 1.0, strip, cfg), None)
  }

  /** The transition a laid-out selection of `target` starts from the (cancelled) state `c`. */
  function TransitionFrom(c: State, strip: Strip, cfg: Config, target: Item, animate: bool): (t: Transition)
    requires cfg.Valid() && strip.Valid()
    ensures t.target == target
    ensures t.fromCenterX == c.indicator.CenterX()
    ensures t.frames == Keyframes(c.indicator.Width() / cfg.DefaultSize(), MaxScale, DefaultScale)
    ensures !animate ==> t.duration == 0
    ensures animate && strip.width > 0.0 ==> t.duration >= BaseDuration
    ensures animate && strip.width > 0.0 && c.indicator.CenterX() == target.CenterX() ==> t.duration == BaseDuration
    ensures animate ==> t.duration == CalculateDuration(Distance(c.indicator.CenterX(), target), strip.width)
  {
    var fromCenterX := c.indicator.CenterX();
    var currentScale := c.indicator.Width() / cfg.DefaultSize();
    var distance := Distance(fromCenterX, target);
    var duration := if animate then CalculateDuration(distance, strip.width) else 0;
    Transition(target, fromCenterX, Keyframes(currentScale, MaxScale, DefaultScale), duration)
  }

  /**
   * An animated transition's duration on a bar of positive width is the distance-scaled
   * duration truncated to whole milliseconds, below Long.MAX_VALUE.
   */
  lemma TransitionDurationFloor(c: State, strip: Strip, cfg: Config, target: Item)
    requires cfg.Valid() && strip.Valid() && strip.width > 0.0
    ensures var t := TransitionFrom(c, strip, cfg, target, true);
      var exact := BaseDuration as real + VariableDuration as real * Distance(c.indicator.CenterX(), target) / strip.width;
      exact < LongMax as real ==> t.duration as real <= exact < t.duration as real + 1.0
  {
  }

  /**
   * onItemSelected(itemId, animate): ignored before layout; otherwise the running animator
   * is cancelled first, and a new one is started only when the item view exists. Starting
   * publishes the frame at play time 0.
   */
  function OnItemSelected(s: State, strip: Strip, cfg: Config, ease: Easing, itemId: ItemId, animate: bool): (r: State)
    requires cfg.Valid() && strip.Valid() && IsEasing(ease)
    ensures !strip.laidOut ==> r == s
    ensures strip.laidOut && itemId !in strip.items ==> r == CancelAnimator(s, strip, cfg)
    ensures strip.laidOut && itemId in strip.items ==>
      && r.animator.Some?
      && r.animator.value == TransitionFrom(CancelAnimator(s, strip, cfg), strip, cfg, strip.items[itemId], animate)
      && r.indicator.Height() == cfg.DefaultSize()
      && r.indicator.bottom == strip.height - cfg.BottomOffset()
  {
    if !strip.laidOut then s
    else
      var c := CancelAnimator(s, strip, cfg);
      match strip.Find(itemId)
      case None => c
      case Some(item) =>
        var t := TransitionFrom(c, strip, cfg, item, animate);
        State(TickRect(t, AnimatedFraction(ease, 0, t.duration), strip, cfg), Some(t))
  }

  /**
   * onNavigationItemSelected: a `false` from the external listener vetoes the selection,
   * leaves the indicator alone and is returned; otherwise the indicator moves and `true`
   * is returned.
   */
  function OnNavigationItemSelected(s: State, strip: Strip, cfg: Config, ease: Easing, itemId: ItemId, answer: Option<bool>): (r: Dispatch<State>)
    requires cfg.Valid() && strip.Valid() && IsEasing(ease)
    ensures r.handled <==> answer.None? || answer.value
    ensures !r.handled ==> r.state == s
    ensures r.handled ==> r.state == OnItemSelected(s, strip, cfg, ease, itemId, true)
  {
    if Proceeds(answer) then Dispatch(true, OnItemSelected(s, strip, cfg, ease, itemId, true))
    else Dispatch(false, s)
  }

  /**
   * The pre-draw callback scheduled by onAttachedToWindow: an unanimated selection of the
   * currently selected item, which places the indicator on it at once.
   */
  function OnPreDraw(s: State, strip: Strip, cfg: Config, ease: Easing, selectedId: ItemId): (r: State)
    requires cfg.Valid() && strip.Valid() && IsEasing(ease)
    ensures strip.laidOut && selectedId in strip.items ==>
      && r.indicator.CenterX() == strip.items[selectedId].CenterX()
      && r.indicator.Width() == cfg.DefaultSize()
      && r.indicator.Height() == cfg.DefaultSize()
      && r.animator.Some? && r.animator.value.duration == 0
    ensures !strip.laidOut ==> r == s
  {
    OnItemSelected(s, strip, cfg, ease, selectedId, false)
  }

  /** onDetachedFromWindow: the animator is cancelled, so the slot is always left empty. */
  function OnDetachedFromWindow(s: State, strip: Strip, cfg: Config): (r: State)
    ensures r.animator == None
    ensures s.animator.Some? ==> r.indicator.CenterX() == s.animator.value.target.CenterX()
    ensures s.animator == None ==> r == s
  {
    CancelAnimator(s, strip, cfg)
  }

  /**
   * A display frame `elapsed` milliseconds after the running animator started: the
   * rectangle for that frame is published and the slot is kept. Once the duration has
   * passed, the published rectangle is the one cancelling would publish.
   */
  function OnAnimationFrame(s: State, strip: Strip, cfg: Config, ease: Easing, elapsed: nat): (r: State)
    requires IsEasing(ease)
    ensures r.animator == s.animator
    ensures s.animator == None ==> r == s
    ensures s.animator.Some? ==> r.indicator.Height() == cfg.DefaultSize()
    ensures s.animator.Some? && elapsed >= s.animator.value.duration ==>
      r.indicator == CancelAnimator(s, strip, cfg).indicator
  {
    match s.animator
    case None => s
    case Some(t) => s.(indicator := TickRect(t, AnimatedFraction(ease, elapsed, t.duration), strip, cfg))
  }

  /** The callbacks the view receives. */
  datatype Event =
    | ItemSelected(itemId: ItemId, answer: Option<bool>)
    | PreDraw(selectedId: ItemId)
    | AnimationFrame(elapsed: nat)
    | Detached

  function Step(s: State, strip: Strip, cfg: Config, ease: Easing, e: Event): (r: State)
    requires cfg.Valid() && strip.Valid() && IsEasing(ease)
  {
    match e
    case ItemSelected(id, answer) => OnNavigationItemSelected(s, strip, cfg, ease, id, answer).state
    case PreDraw(id) => OnPreDraw(s, strip, cfg, ease, id)
    case AnimationFrame(elapsed) => OnAnimationFrame(s, strip, cfg, ease, elapsed)
    case Detached => OnDetachedFromWindow(s, strip, cfg)
  }

  function Run(s: State, strip: Strip, cfg: Config, ease: Easing, events: seq<Event>): (r: State)
    requires cfg.Valid() && strip.Valid() && IsEasing(ease)
    decreases |events|
  {
    if |events| == 0 then s
    else Step(Run(s, strip, cfg, ease, events[..|events| - 1]), strip, cfg, ease, events[|events| - 1])
  }

  /** The item an event moves the indicator to, if any. */
  function Placed(strip: Strip, e: Event): (r: Option<Item>) {
    match e
    case ItemSelected(id, answer) => if strip.laidOut && Proceeds(answer) then strip.Find(id) else None
    case PreDraw(id) => if strip.laidOut then strip.Find(id) else None
    case AnimationFrame(_) => None
    case Detached => None
  }

  /** The last item any of the events moved the indicator to. */
  function LastPlaced(strip: Strip, events: seq<Event>): (r: Option<Item>)
    decreases |events|
  {
    if |events| == 0 then None
    else match Placed(strip, events[|events| - 1])
      case Some(item) => Some(item)
      case None => LastPlaced(strip, events[..|events| - 1])
  }

  /**
   * The geometry invariant: the rectangle is never inverted, and while an animator is
   * held the published rectangle has the default height above the bottom offset and
   * the animator's keyframes are non-negative.
   */
  predicate Inv(s: State, strip: Strip, cfg: Config) {
    && s.indicator.Width() >= 0.0
    && (s.animator.Some? ==>
         && s.indicator.Height() == cfg.DefaultSize()
         && s.indicator.bottom == strip.height - cfg.BottomOffset()
         && s.animator.value.frames.Low() >= 0.0)
  }

  lemma InitialInv(strip: Strip, cfg: Config)
    ensures Inv(Initial, strip, cfg)
  {
  }

  /** Every callback keeps the geometry invariant. */
  lemma StepInv(s: State, strip: Strip, cfg: Config, ease: Easing, e: Event)
    requires cfg.Valid() && strip.Valid() && IsEasing(ease) && Inv(s, strip, cfg)
    ensures Inv(Step(s, strip, cfg, ease, e), strip, cfg)
  {
    var c := CancelAnimator(s, strip, cfg);
    if s.animator.Some? {
      TickEndpoints(s.animator.value, 1.0, strip, cfg);
    }
    assert Inv(c, strip, cfg);
    match e
    case ItemSelected(id, answer) =>
      SelectInv(s, c, strip, cfg, ease, id, true);
    case PreDraw(id) =>
      SelectInv(s, c, strip, cfg, ease, id, false);
    case AnimationFrame(elapsed) =>
      if s.animator.Some? {
        TickEndpoints(s.animator.value, AnimatedFraction(ease, elapsed, s.animator.value.duration), strip, cfg);
      }
    case Detached =>
  }

  lemma SelectInv(s: State, c: State, strip: Strip, cfg: Config, ease: Easing, id: ItemId, animate: bool)
    requires cfg.Valid() && strip.Valid() && IsEasing(ease)
    requires c == CancelAnimator(s, strip, cfg) && Inv(s, strip, cfg) && Inv(c, strip, cfg)
    ensures Inv(OnItemSelected(s, strip, cfg, ease, id, animate), strip, cfg)
  {
    if strip.laidOut && id in strip.items {
      var t := TransitionFrom(c, strip, cfg, strip.items[id], animate);
      assert t.frames.start >= 0.0 by {
        assert c.indicator.Width() >= 0.0;
      }
      TickEndpoints(t, AnimatedFraction(ease, 0, t.duration), strip, cfg);
    }
  }

  /** The geometry invariant holds after any sequence of callbacks. */
  lemma {:induction false} RunInv(s: State, strip: Strip, cfg: Config, ease: Easing, events: seq<Event>)
    requires cfg.Valid() && strip.Valid() && IsEasing(ease) && Inv(s, strip, cfg)
    ensures Inv(Run(s, strip, cfg, ease, events), strip, cfg)
    decreases |events|
  {
    if |events| > 0 {
      RunInv(s, strip, cfg, ease, events[..|events| - 1]);
      StepInv(Run(s, strip, cfg, ease, events[..|events| - 1]), strip, cfg, ease, events[|events| - 1]);
    }
  }

  /**
   * Preemption: however selections interrupt each other, once the last animator is
   * ended the indicator rests exactly on the last item it was sent to, at the default
   * size, and the slot is empty.
   */
  lemma {:induction false} SettlesOnLastPlaced(s: State, strip: Strip, cfg: Config, ease: Easing, events: seq<Event>)
    requires cfg.Valid() && strip.Valid() && IsEasing(ease)
    requires LastPlaced(strip, events).Some?
    ensures var r := CancelAnimator(Run(s, strip, cfg, ease, events), strip, cfg);
      && r.animator == None
      && r.indicator.CenterX() == LastPlaced(strip, events).value.CenterX()
      && r.indicator.Width() == cfg.DefaultSize()
      && r.indicator.Height() == cfg.DefaultSize()
      && r.indicator.bottom == strip.height - cfg.BottomOffset()
    decreases |events|
  {
    var init := events[..|events| - 1];
    var e := events[|events| - 1];
    var p := Run(s, strip, cfg, ease, init);
    var q := Run(s, strip, cfg, ease, events);
    assert q == Step(p, strip, cfg, ease, e);
    if Placed(strip, e).None? {
      SettlesOnLastPlaced(s, strip, cfg, ease, init);
      assert CancelAnimator(q, strip, cfg) == CancelAnimator(p, strip, cfg);
    }
  }

  /**
   * Before layout nothing reaches the indicator: on a strip that is not laid out, every
   * selection and pre-draw callback is dropped, and with no animator ever started,
   * frames and detaching change nothing either.
   */
  lemma {:induction false} NothingMovesBeforeLayout(strip: Strip, cfg: Config, ease: Easing, events: seq<Event>)
    requires cfg.Valid() && strip.Valid() && IsEasing(ease) && !strip.laidOut
    ensures Run(Initial, strip, cfg, ease, events) == Initial
    decreases |events|
  {
    if |events| > 0 {
      NothingMovesBeforeLayout(strip, cfg, ease, events[..|events| - 1]);
    }
  }

  /**
   * The attach lifecycle: whatever was selected while the strip was not laid out, the
   * first placement is the pre-draw callback's on the laid-out strip, which puts the
   * default-size rectangle on the selected item above the new bottom offset.
   */
  lemma PlacedAfterLayout(before: Strip, after: Strip, cfg: Config, ease: Easing, events: seq<Event>, selectedId: ItemId)
    requires cfg.Valid() && before.Valid() && after.Valid() && IsEasing(ease)
    requires !before.laidOut && after.laidOut && selectedId in after.items
    ensures var p := Run(Initial, before, cfg, ease, events);
      var r := Step(p, after, cfg, ease, PreDraw(selectedId));
      && p == Initial
      && r.indicator.CenterX() == after.items[selectedId].CenterX()
      && r.indicator.Width() == cfg.DefaultSize()
      && r.indicator.bottom == after.height - cfg.BottomOffset()
  {
    NothingMovesBeforeLayout(before, cfg, ease, events);
  }

  /**
   * A selection starts where the indicator is: the first frame of a new animated
   * transition has the same centre and width as the cancelled state it starts from.
   */
  lemma SelectionStartsAtIndicator(s: State, strip: Strip, cfg: Config, ease: Easing, itemId: ItemId)
    requires cfg.Valid() && strip.Valid() && IsEasing(ease)
    requires strip.laidOut && itemId in strip.items && strip.width > 0.0
    ensures var c := CancelAnimator(s, strip, cfg);
      var r := OnItemSelected(s, strip, cfg, ease, itemId, true);
      r.indicator.CenterX() == c.indicator.CenterX() && r.indicator.Width() == c.indicator.Width()
  {
    var c := CancelAnimator(s, strip, cfg);
    var t := TransitionFrom(c, strip, cfg, strip.items[itemId], true);
    assert AnimatedFraction(ease, 0, t.duration) == 0.0;
    TickEndpoints(t, 0.0, strip, cfg);
    assert cfg.DefaultSize() * (c.indicator.Width() / cfg.DefaultSize()) == c.indicator.Width();
  }

  /**
   * Example: a 300-wide strip with items centred at 50 and 250, the
   * indicator resting on the first. Selecting the second travels 200, takes
   * `floor(300 + 300 * 200 / 300)` = 500 ms, and at fraction 0.5 is centred at 150.
   */
  lemma TwoItemExample(cfg: Config, ease: Easing)
    requires cfg.Valid() && IsEasing(ease)
    ensures var strip := Strip(true, 300.0, 56.0, map[1 := Item(0.0, 100.0), 2 := Item(200.0, 100.0)]);
      var s := OnPreDraw(Initial, strip, cfg, ease, 1);
      var r := OnItemSelected(s, strip, cfg, ease, 2, true);
      && s.indicator.CenterX() == 50.0
      && r.animator.Some?
      && r.animator.value.duration == 500
      && TickRect(r.animator.value, 0.5, strip, cfg).CenterX() == 150.0
  {
    var strip := Strip(true, 300.0, 56.0, map[1 := Item(0.0, 100.0), 2 := Item(200.0, 100.0)]);
    var s := OnPreDraw(Initial, strip, cfg, ease, 1);
    var c := CancelAnimator(s, strip, cfg);
    assert c.indicator.CenterX() == 50.0;
    assert Distance(50.0, Item(200.0, 100.0)) == 200.0;
    assert CalculateDuration(200.0, 300.0) == 500 by {
      assert 300.0 * 200.0 / 300.0 == 200.0;
    }
  }
}
